=== FILE: README.md ===
# Whisper transcription route, modelled in Dafny

The repository's one API route, `GET /api/whisper?videoId=...`,
checks the id, downloads the video's audio track to a scratch file, sends that file
to OpenAI's Whisper transcription endpoint, and replies with
`{ text, segments }`. This project models the decision-making parts of that route
(api/whisper.js) as pure Dafny functions:

- the `videoId` check against `^[A-Za-z0-9_-]{6,}$`, including the lists and
  objects Express's query parser builds from repeated or bracketed parameters, and
  how `String(...)` turns them into a string or throws (`VideoIds`, `JsValues`);
- the user-agent and cookie sanitising, `replace(/[\r\n]/g, " ").trim()`, and the
  header map built by `reqOpts()` (`JsStrings`, `RequestHeaders`);
- the download URL and the scratch file name `yt-<id>-<Date.now()>.webm`
  (`ScratchFiles`);
- the projection of the provider's segments to `{start, end, text}` and the
  `text || ""` default (`TranscriptShaping`);
- the handler's control flow (`WhisperRoute.Handle`). It maps a request and the
  outcomes of the outside calls to a `Run`. A `Run` holds the outbound calls in
  order, the single reply, the path unlinked after the reply, and the scratch file
  left on disk.

The downloader, the transcription provider, the clock, the temp directory and the
unlink are parameters (`World`): each is an outcome the handler reacts to, not code
that is modelled.

A few facts about the code shape the model:
- The audio is downloaded once (api/whisper.js:42-55); there is no retry and no
  second source.
- Nothing checks the size of the downloaded file before it is sent for
  transcription.
- The scratch file is unlinked only after the 200 reply (api/whisper.js:71). The
  catch block does not unlink, so a failed transcription leaves the file behind.
- The 500 reply's `detail` is `String(err?.message || err)` (api/whisper.js:74).

## Model

| member | source | states |
|---|---|---|
| JsStrings.ReplaceLineBreaks | api/whisper.js:15-16 | the replacement keeps the length, turns exactly the CR and LF characters into spaces, and leaves no CR or LF |
| JsStrings.LeadingWhitespace | api/whisper.js:15-16 | the count covers a run of whitespace at the start of the string, and the character after it, if any, is not whitespace |
| JsStrings.TrailingWhitespace | api/whisper.js:15-16 | the count covers a run of whitespace at the end of the string, and the character before it, if any, is not whitespace |
| JsStrings.TrimStart | api/whisper.js:15-16 | the result is a suffix of the input, everything removed is whitespace, and the result does not start with whitespace |
| JsStrings.TrimEnd | api/whisper.js:15-16 | the result is a prefix of the input, everything removed is whitespace, and the result does not end with whitespace |
| JsStrings.InfixOfTrims | api/whisper.js:15-16 | removing whitespace from the front and then from the back leaves an infix of the original with only whitespace around it |
| JsStrings.Trim | api/whisper.js:15-16 | `trim` returns the infix that starts where the leading whitespace ends, with only whitespace removed on both sides, and neither end of the result is whitespace |
| JsStrings.TrimKeepsNoLineBreaks | api/whisper.js:15-16 | trimming a string with no CR or LF leaves none |
| JsStrings.TrimFixedPoint | api/whisper.js:15-16 | `trim` leaves a string unchanged if and only if neither of its ends is whitespace |
| JsStrings.TrimIdempotent | api/whisper.js:15-16 | trimming twice gives the same result as trimming once |
| JsStrings.NatToDecimal | api/whisper.js:39 | the printed clock value is a non-empty run of decimal digits with no leading zero |
| JsStrings.DecimalRoundTrip | api/whisper.js:39 | reading the printed clock value back as a decimal number gives the clock value |
| JsStrings.NatToDecimalInjective | api/whisper.js:39 | different clock values print differently |
| JsValues.ErrorDetail | api/whisper.js:74 | the 500 detail is the thrown value's `message` when that is a non-empty string, and the thrown value's own string form otherwise |
| JsValues.ErrorDetailOfError | api/whisper.js:74 | for a thrown `Error`, the 500 detail is its message, or its name when the message is empty |
| JsValues.ErrorDetailOfNonErrors | api/whisper.js:74 | a thrown `null` or `undefined` gives the detail "null" or "undefined", a thrown primitive its string form, and an object without a non-empty message its string form |
| JsValues.NullReadDetail | api/whisper.js:66 | reading `start` from `null` throws with the message "Cannot read properties of null (reading 'start')" |
| JsValues.QueryString | api/whisper.js:34 | `String(videoId)` throws exactly when some object in the parameter has an own `toString` key, and then with the TypeError "Cannot convert object to primitive value"; a plain string converts to itself |
| JsValues.JoinFrom | api/whisper.js:34 | joining list items throws exactly when one of the remaining items throws on conversion, with the same TypeError |
| JsValues.ListStringHasComma | api/whisper.js:34 | a repeated query parameter (a list of two or more values) prints with a comma in it |
| JsValues.SingletonListString | api/whisper.js:34 | a one-value list prints exactly as its value |
| VideoIds.RunCounts | api/whisper.js:34 | the pattern automaton survives exactly the strings of id characters and counts them up to six |
| VideoIds.PatternTestIsVideoId | api/whisper.js:34 | the regular-expression test accepts a string if and only if it has at least six characters and each is a letter, digit, `_` or `-` |
| VideoIds.ValidateVideoId | api/whisper.js:33-36 | the check throws exactly when the query has a `videoId` whose conversion to a string throws, with the conversion TypeError; it accepts exactly when the query has `videoId`, the conversion succeeds and its result is a valid id, and the accepted id is that string |
| VideoIds.ValidateString | api/whisper.js:34 | a plain string parameter is accepted, as itself, if and only if it has six or more characters from `[A-Za-z0-9_-]`, and is rejected otherwise |
| VideoIds.WellFormedId | api/whisper.js:34 | the id `dQw4w9WgXcQ` is accepted as itself |
| VideoIds.ValidateRejectsRepeated | api/whisper.js:33-34 | a `videoId` given two or more times is never accepted |
| VideoIds.ValidateSingletonList | api/whisper.js:33-34 | a one-element `videoId[]` list is judged exactly as its element |
| VideoIds.ValidateObject | api/whisper.js:33-34 | a bracketed-key object parameter throws the conversion TypeError when it has an own `toString` key, and is rejected otherwise |
| RequestHeaders.EnvOr | api/whisper.js:13-14 | `process.env.X || fallback` gives the variable's value when it is set and non-empty, and the fallback otherwise |
| RequestHeaders.Sanitize | api/whisper.js:15-16 | a sanitised value has no CR or LF and no whitespace at either end; it is the raw value with CR and LF turned into spaces and then only leading and trailing whitespace removed |
| RequestHeaders.SanitizeFixedPoint | api/whisper.js:15-16 | sanitising leaves a value unchanged if and only if it already has no CR/LF and no edge whitespace |
| RequestHeaders.SanitizeIdempotent | api/whisper.js:15-16 | sanitising twice gives the same result as sanitising once |
| RequestHeaders.DefaultUserAgentIsClean | api/whisper.js:13 | the built-in user-agent has no CR/LF and no edge whitespace |
| RequestHeaders.DefaultUserAgentKept | api/whisper.js:13-15 | sanitising leaves the built-in user-agent unchanged |
| RequestHeaders.UserAgentOf | api/whisper.js:13-15 | the user-agent is clean; it is the built-in one when `YT_UA` is unset or empty, and the sanitised `YT_UA` otherwise |
| RequestHeaders.CookieOf | api/whisper.js:14-16 | the cookie is clean; it is empty when `YT_COOKIE` is unset, and the sanitised `YT_COOKIE` otherwise |
| RequestHeaders.LoadConfig | api/whisper.js:13-16 | both configured values are clean; an unset or empty `YT_UA` yields the built-in user-agent and a set one its sanitised value; an unset `YT_COOKIE` yields the empty cookie and a set one its sanitised value |
| RequestHeaders.ReqOpts | api/whisper.js:18-26 | the header map has `user-agent` equal to the configured user-agent, `accept-language` and `referer`, and has `cookie`, equal to the cookie, exactly when the cookie is non-empty; it has three entries, or four with the cookie |
| RequestHeaders.FixedHeadersAreClean | api/whisper.js:21-22 | the fixed accept-language and referer values are clean |
| RequestHeaders.ReqOptsHeaders | api/whisper.js:18-26 | the header map's keys are exactly user-agent, accept-language and referer, plus `cookie` when the cookie is non-empty, with the literal values of lines 20-24 |
| RequestHeaders.ReqOptsClean | api/whisper.js:18-26 | with a clean configuration, no header value contains CR/LF or edge whitespace |
| ScratchFiles.WatchUrl | api/whisper.js:38 | the URL is the watch-page prefix followed by the id verbatim |
| ScratchFiles.WatchUrlInjective | api/whisper.js:38 | the download URL determines the id |
| ScratchFiles.ScratchName | api/whisper.js:39 | the name is `yt-`, the id, a dash, the clock reading printed in decimal (digits only, no leading zero, reading back as the clock value), and `.webm` |
| ScratchFiles.JoinPath | api/whisper.js:39 | for a non-empty directory the path starts with the directory and ends with the name, with exactly one `/` between them: the directory's own trailing `/` when it has one, an added `/` otherwise; an empty directory gives the name alone |
| ScratchFiles.SplitAtLastDash | api/whisper.js:39 | `a-b` and `c-d` with no dash in `b` and `d` are equal only when `a = c` and `b = d` |
| ScratchFiles.ScratchNameInjective | api/whisper.js:39 | two scratch names are equal only for the same id and the same clock value |
| ScratchFiles.JoinPathInjective | api/whisper.js:39 | in one directory, equal joined paths mean equal names |
| ScratchFiles.ScratchPathsDistinct | api/whisper.js:39 | requests that differ in id or in clock value never share a scratch path |
| TranscriptShaping.Projection | api/whisper.js:66 | the projected segment has exactly the keys `start`, `end` and `text`, each holding the source segment's property of that name |
| TranscriptShaping.ShapeSegment | api/whisper.js:66 | projecting a segment succeeds exactly when it is not null or undefined, and then yields its start, end and text; otherwise it throws the TypeError for reading `start` |
| TranscriptShaping.FirstNullish | api/whisper.js:66 | the returned index is that of the first null or undefined segment, or the list length when there is none |
| TranscriptShaping.ShapeItems | api/whisper.js:65-67 | the mapped list has the input's length, and its i-th entry is the projection of the i-th input, so nothing is reordered or dropped; it fails exactly when some item is nullish, with the first such item's TypeError |
| TranscriptShaping.ShapeSegments | api/whisper.js:65-67 | a non-array `segments` gives `[]`, an array is shaped item by item, and a nullish provider response throws |
| TranscriptShaping.SuccessBody | api/whisper.js:65-69 | the body has exactly `text` and `segments`; `text` is the provider's text when truthy and `""` otherwise; `segments` is the shaped list |
| TranscriptShaping.ProjectionIdempotent | api/whisper.js:66 | projecting a projected segment changes nothing |
| TranscriptShaping.ShapeItemsIdempotent | api/whisper.js:65-67 | shaping already-shaped segments returns them unchanged |
| WhisperRoute.YtdlOptions | api/whisper.js:44-50 | the downloader gets the `reqOpts()` headers, `highestaudio` quality, the `audioonly` filter, a 32 MiB buffer and no chunking |
| WhisperRoute.FailureResponse | api/whisper.js:72-74 | the catch reply has status 500 and exactly the keys `error` and `detail`; `error` is "Whisper failed" and `detail` is the thrown message when it is a non-empty string, the thrown value's string form otherwise |
| WhisperRoute.ScratchPath | api/whisper.js:39 | the scratch path starts with the temp directory and ends with the scratch name |
| WhisperRoute.ScratchPathInsideTmpdir | api/whisper.js:39 | the scratch file sits directly inside a non-empty temp directory: the directory, exactly one `/`, then the scratch name |
| WhisperRoute.Proceed | api/whisper.js:38-74 | after the id passes: one download of the watch URL to the scratch path with the downloader options, then one transcription of that file only if the download finished; the reply is 200 or 500; the only file ever left on disk is the scratch file; a 500 unlinks nothing and leaves the scratch file exactly when it was created; a 200 carries the shaped body, needs every stage to succeed, and is followed by the unlink of the scratch file, which stays on disk exactly when the unlink did not remove it |
| WhisperRoute.Handle | api/whisper.js:28-76 | the status is 200, 400 or 500; it is 400 exactly when the id is rejected, and then nothing is called or unlinked; a throwing conversion of `videoId` gives the 500 reply with the conversion error before any call; outbound calls happen exactly when the id is accepted, and then the run is the one `Proceed` describes |
| WhisperRoute.SuccessIff | api/whisper.js:42-71 | the reply is 200 exactly when the id is valid, the download finished, the provider answered, and its segments could be shaped |
| WhisperRoute.DownloadFailureReply | api/whisper.js:42-55 | a failed download gets a 500 reply with that error's detail, and the provider is never called |
| WhisperRoute.TranscriptionFailureReply | api/whisper.js:58-74 | a failed transcription, or an answer with unreadable segments, gets a 500 reply with that error's detail and leaves the scratch file on disk |
| WhisperRoute.UnlinkCannotChangeReply | api/whisper.js:69-71 | the unlink's outcome changes neither the reply nor the calls made |
| WhisperRoute.ProceedIgnoresUnlink | api/whisper.js:69-71 | once the id has passed, the unlink's outcome changes neither the reply nor the calls made |
| WhisperRoute.DistinctScratchFiles | api/whisper.js:38-39 | two valid requests in the same temp directory download to different files unless both the id and the clock value are the same |
| WhisperRoute.DownloadHeadersClean | api/whisper.js:38-45 | the download of a valid request goes to the watch URL of the accepted id with the `reqOpts()` headers; with clean configured values, as `LoadConfig` guarantees, no header can break a header line |
| WhisperRoute.NullSegmentFails | api/whisper.js:65-74 | a `null` in the provider's segment list gets a 500 reply whose detail is V8's "Cannot read properties of null (reading 'start')" |
| WhisperRoute.WellFormedRequest | api/whisper.js:28-71 | for id `dQw4w9WgXcQ` and a one-segment answer, the reply is 200 and its body is exactly the provider's answer; the scratch file is removed |
| WhisperRoute.ToStringKeyFails | api/whisper.js:33-74 | `?videoId[toString]=abcdefg` gets the 500 reply with detail "Cannot convert object to primitive value" and no outbound call |
| WhisperRoute.ShortIdRefused | api/whisper.js:33-36 | a five-character id gets the 400 reply, with no calls and no unlink |

## Left out

- server.js: the Express bootstrap, health check, router mounting, fallback error handler and port binding. It makes no decisions.
- The CORS header (api/whisper.js:31) and `console.error` (api/whisper.js:73). Neither affects the reply body or status.
- The audio download (api/whisper.js:42-55). The model receives it as a `DownloadOutcome` and records the options passed to it; the stream piping is not modelled.
- The OpenAI transcription call (api/whisper.js:58-63). The model receives it as a `TranscribeOutcome` holding the parsed response or a thrown value.
- `fs.unlink` is asynchronous, and errors reported to its callback are ignored. The model records the attempt and receives its effect on disk as an `UnlinkOutcome`.
- `Date.now()` and `os.tmpdir()` are parameters. The clock is a non-negative integer of milliseconds.
- ScratchFiles.JoinPath: `path.join` is modelled for an absolute POSIX directory already in normal form. Collapsing `.`/`..` and repeated separators, a relative directory such as `.` (which `path.join` drops), and Windows separators are not modelled.
- WhisperRoute.ScratchPath: relies on the same assumption about `os.tmpdir()`; its "starts with the temp directory" holds only for a directory in that form.
- JavaScript strings are UTF-16 code units, while Dafny characters are Unicode scalar values, so lone surrogates cannot be represented. This does not matter here because every accepted id is ASCII.
- Numbers in the provider response are copied and never computed on. NaN, which is falsy, is not representable, so `Truthy` treats every non-zero number as truthy.
- JsValues.ErrorDetail: a thrown object whose `message` is truthy but not a string is not modelled; the model assumes `message` is a string or undefined.
- VideoIds.ValidateVideoId: the model takes `req.query` as already parsed, as strings, lists and objects such as Express's extended (qs) query parser builds. The parser itself, its depth and list limits and its handling of `__proto__` are not modelled. An own `toString` key is the only key that makes `String(videoId)` throw: the parser never produces a function, and an own `valueOf` key leaves `Object.prototype.toString` in charge.
- Property reads use own fields only. Inherited properties such as `constructor` are not modelled; the route reads only `segments`, `text`, `start` and `end`.
- JSON serialisation of the reply is not modelled. Express omits segment fields whose value is `undefined`.

=== FILE: js_strings.dfy ===
/** The JavaScript string operations the route relies on: `String.prototype.trim`,
    the `/[\r\n]/g` replacement and the decimal form of a non-negative integer. */
module JsStrings {

  /** The characters of the regular-expression class `[\r\n]`. */
  predicate IsLineBreak(c: char) {
    c == '\r' || c == '\n'
  }

  /** ECMAScript WhiteSpace and LineTerminator code points: what `trim` removes. */
  predicate IsWhitespace(c: char) {
    || c == '\t' || c == '\U{000B}' || c == '\U{000C}' || c == ' '
    || c == '\U{00A0}' || c == '\U{FEFF}' || c == '\U{1680}'
    || ('\U{2000}' <= c <= '\U{200A}')
    || c == '\U{202F}' || c == '\U{205F}' || c == '\U{3000}'
    || c == '\n' || c == '\r' || c == '\U{2028}' || c == '\U{2029}'
  }

  predicate NoLineBreaks(s: string) {
    forall i :: 0 <= i < |s| ==> !IsLineBreak(s[i])
  }

  lemma NoLineBreaksConcat(a: string, b: string)
    requires NoLineBreaks(a) && NoLineBreaks(b)
    ensures NoLineBreaks(a + b)
  {
    forall i | |a| <= i < |a + b| ensures !IsLineBreak((a + b)[i]) {
      assert (a + b)[i] == b[i - |a|];
    }
  }

  /** Neither the first nor the last character is whitespace. */
  predicate EdgesTrimmed(s: string) {
    s == [] || (!IsWhitespace(s[0]) && !IsWhitespace(s[|s| - 1]))
  }

  /** `s.replace(/[\r\n]/g, " ")`: every CR and LF becomes a space, nothing else moves. */
  function ReplaceLineBreaks(s: string): (r: string)
    ensures |r| == |s|
    ensures forall i :: 0 <= i < |s| ==> r[i] == (if IsLineBreak(s[i]) then ' ' else s[i])
    ensures NoLineBreaks(r)
  {
    if s == [] then []
    else [if IsLineBreak(s[0]) then ' ' else s[0]] + ReplaceLineBreaks(s[1..])
  }

  /** Every character of `s` is whitespace. */
  predicate AllWhitespace(s: string) {
    forall i :: 0 <= i < |s| ==> IsWhitespace(s[i])
  }

  /** A whitespace character before a run of whitespace gives a longer run. */
  lemma WhitespacePrefixGrows(s: string, n: nat)
    requires n < |s| && IsWhitespace(s[0]) && AllWhitespace(s[1..][..n])
    ensures AllWhitespace(s[..1 + n])
  {
    var run, tail := s[..1 + n], s[1..][..n];
    forall i | 0 < i < |run| ensures IsWhitespace(run[i]) {
      assert run[i] == tail[i - 1];
    }
  }

  /** A run of whitespace before a final whitespace character gives a longer run. */
  lemma WhitespaceSuffixGrows(s: string, n: nat)
    requires n < |s| && IsWhitespace(s[|s| - 1])
    requires var p := s[..|s| - 1]; AllWhitespace(p[|p| - n..])
    ensures AllWhitespace(s[|s| - (1 + n)..])
  {
    var p := s[..|s| - 1];
    var run, head := s[|s| - (1 + n)..], p[|p| - n..];
    forall i | 0 <= i < n ensures IsWhitespace(run[i]) {
      assert run[i] == head[i];
    }
  }

  /** The number of whitespace characters `s` starts with. */
  function LeadingWhitespace(s: string): (k: nat)
    ensures k <= |s| && AllWhitespace(s[..k])
    ensures k == |s| || !IsWhitespace(s[k])
  {
    if |s| > 0 && IsWhitespace(s[0]) then
      var n := LeadingWhitespace(s[1..]);
      WhitespacePrefixGrows(s, n);
      assert 1 + n < |s| ==> s[1 + n] == s[1..][n];
      1 + n
    else 0
  }

  /** The number of whitespace characters `s` ends with. */
  function TrailingWhitespace(s: string): (k: nat)
    ensures k <= |s| && AllWhitespace(s[|s| - k..])
    ensures k == |s| || !IsWhitespace(s[|s| - 1 - k])
  {
    if |s| > 0 && IsWhitespace(s[|s| - 1]) then
      var n := TrailingWhitespace(s[..|s| - 1]);
      WhitespaceSuffixGrows(s, n);
      assert 1 + n < |s| ==> s[|s| - 1 - (1 + n)] == s[..|s| - 1][|s| - 1 - 1 - n];
      1 + n
    else 0
  }

  /** Drops the leading whitespace: the result is a suffix of `s`, only whitespace
      was removed, and all of it was. */
  function TrimStart(s: string): (r: string)
    ensures |r| <= |s| && r == s[|s| - |r|..]
    ensures AllWhitespace(s[..|s| - |r|])
    ensures r == [] || !IsWhitespace(r[0])
  {
    s[LeadingWhitespace(s)..]
  }

  /** Drops the trailing whitespace: the result is a prefix of `s`, only whitespace
      was removed, and all of it was. */
  function TrimEnd(s: string): (r: string)
    ensures |r| <= |s| && r == s[..|r|]
    ensures AllWhitespace(s[|r|..])
    ensures r == [] || !IsWhitespace(r[|r| - 1])
  {
    s[..|s| - TrailingWhitespace(s)]
  }

  /** `r` sits in `s` at offset `k`, and everything of `s` around it is whitespace. */
  predicate IsInfixAt(s: string, k: nat, r: string) {
    && k + |r| <= |s|
    && r == s[k..k + |r|]
    && AllWhitespace(s[..k])
    && AllWhitespace(s[k + |r|..])
  }

  /** `r` is what `trim` leaves of `s`: the infix that starts where the leading
      whitespace of `s` ends, with only whitespace around it. */
  predicate IsTrimOf(s: string, r: string) {
    IsInfixAt(s, |s| - |TrimStart(s)|, r)
  }

  /** Dropping the trailing whitespace after the leading whitespace leaves exactly
      the infix `IsTrimOf` describes. */
  lemma TrimEndOfTrimStart(s: string)
    ensures IsTrimOf(s, TrimEnd(TrimStart(s)))
  {
    var t := TrimStart(s);
    InfixOfTrims(s, t, TrimEnd(t));
  }

  /** Whitespace dropped from the front of `s` to give `t`, then from the back of `t`
      to give `r`, leaves `r` inside `s` where `t` starts, with whitespace around it. */
  lemma InfixOfTrims(s: string, t: string, r: string)
    requires |t| <= |s| && t == s[|s| - |t|..] && AllWhitespace(s[..|s| - |t|])
    requires |r| <= |t| && r == t[..|r|] && AllWhitespace(t[|r|..])
    ensures IsInfixAt(s, |s| - |t|, r)
  {
    var k := |s| - |t|;
    assert s[k + |r|..] == t[|r|..];
  }

  /** `String.prototype.trim`: the longest infix of `s` whose ends are not whitespace,
      with only whitespace around it. */
  function Trim(s: string): (r: string)
    ensures IsTrimOf(s, r)
    ensures EdgesTrimmed(r)
  {
    var t := TrimStart(s);
    var r := TrimEnd(t);
    TrimEndOfTrimStart(s);
    assert r == [] || !IsWhitespace(r[0]) by {
      if r != [] { assert r[0] == t[0]; }
    }
    r
  }

  /** Trimming a string without CR or LF leaves none. */
  lemma TrimKeepsNoLineBreaks(s: string)
    requires NoLineBreaks(s)
    ensures NoLineBreaks(Trim(s))
  {
    var k := |s| - |TrimStart(s)|;
    NoLineBreaksSlice(s, k, k + |Trim(s)|);
  }

  lemma NoLineBreaksSlice(s: string, a: nat, b: nat)
    requires NoLineBreaks(s) && a <= b <= |s|
    ensures NoLineBreaks(s[a..b])
  {
    forall i | 0 <= i < b - a ensures !IsLineBreak(s[a..b][i]) {
      assert s[a..b][i] == s[a + i];
    }
  }

  /** `trim` changes a string exactly when an end of it is whitespace. */
  lemma TrimFixedPoint(s: string)
    ensures Trim(s) == s <==> EdgesTrimmed(s)
  {
    if EdgesTrimmed(s) {
      assert TrimStart(s) == s;
      assert TrimEnd(s) == s;
    }
  }

  lemma TrimIdempotent(s: string)
    ensures Trim(Trim(s)) == Trim(s)
  {
    TrimFixedPoint(Trim(s));
  }

  predicate IsDigit(c: char) {
    '0' <= c <= '9'
  }

  function DigitChar(d: nat): (c: char)
    requires d < 10
  {
    ('0' as int + d) as char
  }

  /** The decimal form JavaScript gives a non-negative integer (`${n}`):
      digits only, no leading zero. */
  function NatToDecimal(n: nat): (r: string)
    ensures |r| >= 1
    ensures forall i :: 0 <= i < |r| ==> IsDigit(r[i])
    ensures r[0] != '0' || n == 0
  {
    if n < 10 then [DigitChar(n)] else NatToDecimal(n / 10) + [DigitChar(n % 10)]
  }

  /** The number a string of decimal digits denotes: the reference reading of `NatToDecimal`. */
  function DecimalValue(s: string): (v: nat)
    requires forall i :: 0 <= i < |s| ==> IsDigit(s[i])
  {
    if s == [] then 0
    else
      assert IsDigit(s[|s| - 1]);
      DecimalValue(s[..|s| - 1]) * 10 + (s[|s| - 1] as int - '0' as int)
  }

  lemma {:induction false} DecimalRoundTrip(n: nat)
    ensures DecimalValue(NatToDecimal(n)) == n
  {
    if n >= 10 {
      var d := NatToDecimal(n);
      assert d[..|d| - 1] == NatToDecimal(n / 10);
      DecimalRoundTrip(n / 10);
    }
  }

  /** Distinct numbers print differently. */
  lemma NatToDecimalInjective(a: nat, b: nat)
    requires NatToDecimal(a) == NatToDecimal(b)
    ensures a == b
  {
    DecimalRoundTrip(a);
    DecimalRoundTrip(b);
  }
}

=== FILE: js_values.dfy ===
/** The JavaScript values the route handles: the provider's parsed JSON, what a
    `throw` carries, the parsed query string, and the conversions the route
    applies to them (truthiness, property reads, `String(...)`). */
module JsValues {
  import opened Wrappers

  /** A JSON-like JavaScript value. Numbers are only copied, never computed on. */
  datatype Value =
    | Undefined
    | Null
    | Bool(b: bool)
    | Num(n: real)
    | Str(s: string)
    | Arr(items: seq<Value>)
    | Obj(fields: map<string, Value>)

  predicate Nullish(v: Value) {
    v.Undefined? || v.Null?
  }

  /** JavaScript truthiness, as `||` and `!` use it. */
  predicate Truthy(v: Value) {
    match v
    case Undefined => false
    case Null => false
    case Bool(b) => b
    case Num(n) => n != 0.0
    case Str(s) => s != ""
    case Arr(_) => true
    case Obj(_) => true
  }

  /** The value of property `key` on a value that has properties: an own field of an
      object, `undefined` for everything else. */
  function Field(v: Value, key: string): (r: Value)
    ensures v.Obj? && key in v.fields ==> r == v.fields[key]
    ensures !(v.Obj? && key in v.fields) ==> r == Undefined
  {
    if v.Obj? && key in v.fields then v.fields[key] else Undefined
  }

  /** What a `throw` carries. */
  datatype Thrown =
      /** `throw null` (`isNull`) or `throw undefined` */
    | ThrownNullish(isNull: bool)
      /** a thrown primitive, with its `String(...)` form */
    | ThrownPrimitive(shown: string)
      /** a thrown object: its `message` property (`None` when undefined) and its `String(...)` form */
    | ThrownObject(message: Option<string>, shown: string)

  /** `Error.prototype.toString` for the given `name` and `message`. */
  function ErrorToString(name: string, message: string): (shown: string) {
    if name == "" then message
    else if message == "" then name
    else name + ": " + message
  }

  /** A thrown `Error` (or subclass) instance. */
  function MakeError(name: string, message: string): (err: Thrown) {
    ThrownObject(Some(message), ErrorToString(name, message))
  }

  /** The `TypeError` V8 throws when a property is read from `null` or `undefined`. */
  function ReadError(v: Value, key: string): (err: Thrown) {
    MakeError("TypeError",
      "Cannot read properties of " + (if v.Null? then "null" else "undefined") + " (reading '" + key + "')")
  }

  /** `v.key`: the property value, or the `TypeError` when `v` is nullish. */
  function GetProp(v: Value, key: string): (r: Result<Value, Thrown>) {
    if Nullish(v) then Err(ReadError(v, key)) else Ok(Field(v, key))
  }

  /** `err?.message` is truthy: the thrown value is an object whose message is a
      non-empty string. */
  predicate HasTruthyMessage(err: Thrown) {
    err.ThrownObject? && err.message.Some? && err.message.value != ""
  }

  /** `String(err)`: the string form of any thrown value. */
  function Shown(err: Thrown): (shown: string) {
    match err
    case ThrownNullish(isNull) => if isNull then "null" else "undefined"
    case ThrownPrimitive(shown) => shown
    case ThrownObject(_, shown) => shown
  }

  /** `String(err?.message || err)`. */
  function ErrorDetail(err: Thrown): (detail: string)
    ensures HasTruthyMessage(err) ==> detail == err.message.value
    ensures !HasTruthyMessage(err) ==> detail == Shown(err)
  {
    match err
    case ThrownNullish(isNull) => if isNull then "null" else "undefined"
    case ThrownPrimitive(shown) => shown
    case ThrownObject(message, shown) =>
      if message.Some? && message.value != "" then message.value else shown
  }

  /** For an `Error` the detail is its message, or its name when the message is empty. */
  lemma ErrorDetailOfError(name: string, message: string)
    ensures ErrorDetail(MakeError(name, message)) == if message != "" then message else name
  {
  }

  /** The details of the other thrown values: `null` and `undefined` print as such, a
      primitive as its string form, an object without a usable message as its string form. */
  lemma ErrorDetailOfNonErrors(shown: string)
    ensures ErrorDetail(ThrownNullish(true)) == "null"
    ensures ErrorDetail(ThrownNullish(false)) == "undefined"
    ensures ErrorDetail(ThrownPrimitive(shown)) == shown
    ensures ErrorDetail(ThrownObject(None, shown)) == shown
    ensures ErrorDetail(ThrownObject(Some(""), shown)) == shown
  {
  }

  /** V8's message for reading `start` from `null`, which the route reports as detail. */
  lemma NullReadDetail()
    ensures ErrorDetail(ReadError(Null, "start")) == "Cannot read properties of null (reading 'start')"
  {
    var msg := "Cannot read properties of " + "null" + " (reading '" + "start" + "')";
    ErrorDetailOfError("TypeError", msg);
  }

  /** A value produced by Express's query parser: a string, a list (repeated or `[]`
      keys) or an object (bracketed keys). */
  datatype QueryValue =
    | QStr(s: string)
    | QList(items: seq<QueryValue>)
    | QObject(fields: map<string, QueryValue>)

  /** Truthiness of a query value: only the empty string is falsy. */
  predicate QueryTruthy(v: QueryValue) {
    !(v.QStr? && v.s == "")
  }

  /** The `TypeError` V8 throws when an object has no callable `toString` or `valueOf`
      giving a primitive. */
  const ConvertError: Thrown := MakeError("TypeError", "Cannot convert object to primitive value")

  /** Converting `v` to a string throws: some object in it has an own `toString` key.
      Such a key is a parsed string, list or object, never a function, so it hides
      `Object.prototype.toString`, and `valueOf` then yields the object itself. */
  predicate ThrowsOnConvert(v: QueryValue)
    decreases v
  {
    match v
    case QStr(_) => false
    case QObject(fields) => "toString" in fields
    case QList(items) => exists i :: 0 <= i < |items| && ThrowsOnConvert(items[i])
  }

  /** `String(v)`: strings as they are, lists joined by `,`, objects as
      `[object Object]`, unless an own `toString` key makes the conversion throw. */
  function QueryString(v: QueryValue): (r: Result<string, Thrown>)
    ensures r.Err? <==> ThrowsOnConvert(v)
    ensures r.Err? ==> r.error == ConvertError
    ensures v.QStr? ==> r == Ok(v.s)
    decreases v, 1
  {
    match v
    case QStr(s) => Ok(s)
    case QList(_) => JoinFrom(v, 0)
    case QObject(fields) => if "toString" in fields then Err(ConvertError) else Ok("[object Object]")
  }

  /** `Array.prototype.join(",")` over the items of `list` from index `i` on,
      converting the items left to right. */
  function JoinFrom(list: QueryValue, i: nat): (r: Result<string, Thrown>)
    requires list.QList? && i <= |list.items|
    ensures r.Err? <==> exists j :: i <= j < |list.items| && ThrowsOnConvert(list.items[j])
    ensures r.Err? ==> r.error == ConvertError
    decreases list, 0, |list.items| - i
  {
    if i == |list.items| then Ok("")
    else
      match QueryString(list.items[i])
      case Err(e) => Err(e)
      case Ok(item) =>
        match JoinFrom(list, i + 1)
        case Err(e) => Err(e)
        case Ok(rest) => Ok((if i == 0 then "" else ",") + item + rest)
  }

  /** Every item after the first is preceded by a comma. */
  lemma {:induction false} JoinFromHasComma(list: QueryValue, i: nat)
    requires list.QList? && 0 < i < |list.items|
    requires JoinFrom(list, i).Ok?
    ensures ',' in JoinFrom(list, i).value
  {
    assert JoinFrom(list, i).value[0] == ',';
  }

  /** A list of two or more items that converts at all prints with a comma in it. */
  lemma ListStringHasComma(items: seq<QueryValue>)
    requires |items| >= 2
    requires QueryString(QList(items)).Ok?
    ensures ',' in QueryString(QList(items)).value
  {
    var list := QList(items);
    var first := QueryString(items[0]).value;
    JoinFromHasComma(list, 1);
    var rest := JoinFrom(list, 1).value;
    var whole := QueryString(list).value;
    assert whole == "" + first + rest;
    var k :| 0 <= k < |rest| && rest[k] == ',';
    assert whole[|first| + k] == ',';
  }

  /** A one-item list converts as its item, throwing exactly when the item throws. */
  lemma SingletonListString(x: QueryValue)
    ensures QueryString(QList([x])) == QueryString(x)
  {
    var list := QList([x]);
    assert JoinFrom(list, 1) == Ok("");
    assert QueryString(list) == JoinFrom(list, 0);
    if QueryString(x).Ok? {
      var s := QueryString(x).value;
      assert JoinFrom(list, 0) == Ok("" + s + "");
      assert "" + s + "" == s;
    }
  }
}

=== FILE: request_headers.dfy ===
/** The request profile of api/whisper.js: the user-agent and cookie read from the
    environment, their sanitising, and the header map `reqOpts()` builds. */
module RequestHeaders {
  import opened Wrappers
  import opened JsStrings

  /** The two environment variables the profile reads (`None` when unset). */
  datatype Env = Env(ytUa: Option<string>, ytCookie: Option<string>)

  /** The sanitised values, computed once when the module loads. */
  datatype Config = Config(userAgent: string, cookie: string)

  /** The built-in user-agent, written as its product tokens. */
  const DefaultUserAgent: string :=
    UaMozilla + UaPlatform + UaWebKit + UaEngine + UaChrome + UaSafari
  const UaMozilla: string := "Mozilla/5.0 "
  const UaPlatform: string := "(Windows NT 10.0; Win64; x64) "
  const UaWebKit: string := "AppleWebKit/537.36 "
  const UaEngine: string := "(KHTML, like Gecko) "
  const UaChrome: string := "Chrome/124.0.0.0 "
  const UaSafari: string := "Safari/537.36"
  const AcceptLanguage: string := "en-US,en;q=0.9,ko;q=0.8"
  const Referer: string := "https://www.youtube.com/"

  /** `process.env.X || fallback`: an unset or empty variable gives the fallback. */
  function EnvOr(v: Option<string>, fallback: string): (value: string)
    ensures v.Some? && v.value != "" ==> value == v.value
    ensures v.None? || v.value == "" ==> value == fallback
  {
    if v.Some? && v.value != "" then v.value else fallback
  }

  /** A value safe to place in a header: no CR or LF, no whitespace at either end. */
  predicate IsCleanHeaderValue(s: string) {
    NoLineBreaks(s) && EdgesTrimmed(s)
  }

  /** `raw.replace(/[\r\n]/g, " ").trim()`. */
  function Sanitize(raw: string): (r: string)
    ensures IsCleanHeaderValue(r)
    ensures |r| <= |raw|
    ensures IsTrimOf(ReplaceLineBreaks(raw), r)
  {
    var spaced := ReplaceLineBreaks(raw);
    TrimKeepsNoLineBreaks(spaced);
    Trim(spaced)
  }

  /** Sanitising leaves a value alone exactly when it is already clean. */
  lemma SanitizeFixedPoint(s: string)
    ensures Sanitize(s) == s <==> IsCleanHeaderValue(s)
  {
    if IsCleanHeaderValue(s) {
      assert ReplaceLineBreaks(s) == s;
      TrimFixedPoint(s);
    }
  }

  lemma SanitizeIdempotent(s: string)
    ensures Sanitize(Sanitize(s)) == Sanitize(s)
  {
    SanitizeFixedPoint(Sanitize(s));
  }

  /** The built-in user-agent is already clean, so it is used unchanged. */
  lemma DefaultUserAgentIsClean()
    ensures IsCleanHeaderValue(DefaultUserAgent)
  {
    assert NoLineBreaks(UaMozilla) && NoLineBreaks(UaPlatform) && NoLineBreaks(UaWebKit);
    assert NoLineBreaks(UaEngine) && NoLineBreaks(UaChrome) && NoLineBreaks(UaSafari);
    NoLineBreaksConcat(UaMozilla, UaPlatform);
    NoLineBreaksConcat(UaMozilla + UaPlatform, UaWebKit);
    NoLineBreaksConcat(UaMozilla + UaPlatform + UaWebKit, UaEngine);
    NoLineBreaksConcat(UaMozilla + UaPlatform + UaWebKit + UaEngine, UaChrome);
    NoLineBreaksConcat(UaMozilla + UaPlatform + UaWebKit + UaEngine + UaChrome, UaSafari);
  }

  /** Sanitising does not alter the built-in user-agent. */
  lemma DefaultUserAgentKept()
    ensures Sanitize(DefaultUserAgent) == DefaultUserAgent
  {
    DefaultUserAgentIsClean();
    SanitizeFixedPoint(DefaultUserAgent);
  }

  /** `UA`: `sanitize(process.env.YT_UA || <built-in user-agent>)`. */
  function UserAgentOf(env: Env): (ua: string)
    ensures IsCleanHeaderValue(ua)
    ensures env.ytUa.None? || env.ytUa == Some("") ==> ua == DefaultUserAgent
    ensures env.ytUa.Some? && env.ytUa.value != "" ==> ua == Sanitize(env.ytUa.value)
  {
    DefaultUserAgentKept();
    Sanitize(EnvOr(env.ytUa, DefaultUserAgent))
  }

  /** `COOKIE`: `sanitize(process.env.YT_COOKIE || "")`. */
  function CookieOf(env: Env): (cookie: string)
    ensures IsCleanHeaderValue(cookie)
    ensures env.ytCookie.None? ==> cookie == ""
    ensures env.ytCookie.Some? ==> cookie == Sanitize(env.ytCookie.value)
  {
    SanitizeFixedPoint("");
    Sanitize(EnvOr(env.ytCookie, ""))
  }

  /** `UA` and `COOKIE`: the environment values (or their fallbacks) sanitised. */
  function LoadConfig(env: Env): (cfg: Config)
    ensures IsCleanHeaderValue(cfg.userAgent) && IsCleanHeaderValue(cfg.cookie)
    ensures env.ytUa.None? || env.ytUa == Some("") ==> cfg.userAgent == DefaultUserAgent
    ensures env.ytUa.Some? && env.ytUa.value != "" ==> cfg.userAgent == Sanitize(env.ytUa.value)
    ensures env.ytCookie.None? ==> cfg.cookie == ""
    ensures env.ytCookie.Some? ==> cfg.cookie == Sanitize(env.ytCookie.value)
  {
    Config(UserAgentOf(env), CookieOf(env))
  }

  /** `reqOpts().headers`. */
  function ReqOpts(cfg: Config): (h: map<string, string>)
    ensures "user-agent" in h && h["user-agent"] == cfg.userAgent
    ensures "accept-language" in h && "referer" in h
    ensures "cookie" in h <==> cfg.cookie != ""
    ensures "cookie" in h ==> h["cookie"] == cfg.cookie
    ensures |h| == if cfg.cookie != "" then 4 else 3
  {
    var base := map["user-agent" := cfg.userAgent, "accept-language" := AcceptLanguage, "referer" := Referer];
    if cfg.cookie != "" then base["cookie" := cfg.cookie] else base
  }

  /** The fixed header values are clean too. */
  lemma FixedHeadersAreClean()
    ensures IsCleanHeaderValue(AcceptLanguage) && IsCleanHeaderValue(Referer)
  {
    assert NoLineBreaks(AcceptLanguage);
    assert NoLineBreaks(Referer);
  }

  /** The headers sent upstream: the three fixed names always, `cookie` exactly when
      the cookie is non-empty, and the configured values under them. */
  lemma ReqOptsHeaders(cfg: Config)
    ensures var h := ReqOpts(cfg);
      && h.Keys == {"user-agent", "accept-language", "referer"} + (if cfg.cookie != "" then {"cookie"} else {})
      && h["user-agent"] == cfg.userAgent
      && h["accept-language"] == AcceptLanguage
      && h["referer"] == Referer
      && ("cookie" in h ==> h["cookie"] == cfg.cookie)
  {
  }

  /** With a clean configuration, such as `LoadConfig` produces, no header value can
      break a header line or carry edge whitespace. */
  lemma ReqOptsClean(cfg: Config)
    requires IsCleanHeaderValue(cfg.userAgent) && IsCleanHeaderValue(cfg.cookie)
    ensures var h := ReqOpts(cfg);
      forall k :: k in h ==> IsCleanHeaderValue(h[k])
  {
    var h := ReqOpts(cfg);
    FixedHeadersAreClean();
    forall k | k in h ensures IsCleanHeaderValue(h[k]) {
      assert h[k] in {cfg.userAgent, cfg.cookie, AcceptLanguage, Referer};
    }
  }
}

=== FILE: scratch_files.dfy ===
/** The download URL and the per-request scratch file of api/whisper.js. */
module ScratchFiles {
  import opened JsStrings

  const WatchPrefix: string := "https://www.youtube.com/watch?v="

  /** `https://www.youtube.com/watch?v=${videoId}`: the watch-page prefix, then the
      id verbatim. */
  function WatchUrl(id: string): (url: string)
    ensures |url| == |WatchPrefix| + |id|
    ensures url[..|WatchPrefix|] == WatchPrefix && url[|WatchPrefix|..] == id
  {
    WatchPrefix + id
  }

  /** The id can be read back from the URL, so distinct ids give distinct URLs. */
  lemma WatchUrlInjective(id1: string, id2: string)
    requires WatchUrl(id1) == WatchUrl(id2)
    ensures id1 == id2
  {
    assert id1 == WatchUrl(id1)[|WatchPrefix|..];
    assert id2 == WatchUrl(id2)[|WatchPrefix|..];
  }

  /** `yt-${videoId}-${Date.now()}.webm`, with the clock reading `now` in milliseconds:
      `yt-`, the id, a dash, the clock reading in decimal, and the `.webm` extension. */
  function ScratchName(id: string, now: nat): (name: string)
    ensures |name| > |id| + 9
    ensures name[..3] == "yt-" && name[3..3 + |id|] == id && name[3 + |id|] == '-'
    ensures name[|name| - 5..] == ".webm"
    ensures var digits := name[4 + |id|..|name| - 5];
      && (forall i :: 0 <= i < |digits| ==> IsDigit(digits[i]))
      && (|digits| == 1 || digits[0] != '0')
      && DecimalValue(digits) == now
  {
    var digits := NatToDecimal(now);
    var name := "yt-" + id + "-" + digits + ".webm";
    assert name[4 + |id|..|name| - 5] == digits;
    DecimalRoundTrip(now);
    name
  }

  /** `path.join(dir, name)` for an absolute POSIX directory already in normal form
      and a name with no separator in it: exactly one `/` between the two. */
  function JoinPath(dir: string, name: string): (path: string)
    ensures |dir| + |name| <= |path| <= |dir| + 1 + |name|
    ensures path[|path| - |name|..] == name
    ensures path[..|dir|] == dir
    ensures dir != [] ==> path[|path| - |name| - 1] == '/'
    ensures dir == [] ==> path == name
    ensures dir != [] && dir[|dir| - 1] == '/' ==> |path| == |dir| + |name|
    ensures dir != [] && dir[|dir| - 1] != '/' ==> |path| == |dir| + 1 + |name|
  {
    if dir == [] then name
    else if dir[|dir| - 1] == '/' then dir + name
    else dir + "/" + name
  }

  /** In `a-b` with no dash in `b`, the dash after `a` is the last one. */
  lemma LastDash(a: string, b: string)
    requires '-' !in b
    ensures var x := a + "-" + b;
      x[|a|] == '-' && forall i :: |a| < i < |x| ==> x[i] != '-'
  {
    var x := a + "-" + b;
    forall i | |a| < i < |x| ensures x[i] != '-' {
      assert x[i] == b[i - |a| - 1];
    }
  }

  /** When two strings split as `a-b` and `c-d` with no dash in `b` or `d`, the
      parts agree: the split is at the last dash. */
  lemma {:induction false} SplitAtLastDash(a: string, b: string, c: string, d: string)
    requires a + "-" + b == c + "-" + d
    requires '-' !in b && '-' !in d
    ensures a == c && b == d
  {
    var x := a + "-" + b;
    LastDash(a, b);
    LastDash(c, d);
    assert |a| == |c|;
    assert a == x[..|a|];
    assert c == x[..|c|];
    assert b == x[|a| + 1..];
    assert d == x[|c| + 1..];
  }

  /** Two requests get the same scratch name only for the same id and the same clock
      reading: the decimal clock value has no dash, so the id is everything between
      `yt-` and the last dash. */
  lemma ScratchNameInjective(id1: string, now1: nat, id2: string, now2: nat)
    requires ScratchName(id1, now1) == ScratchName(id2, now2)
    ensures id1 == id2 && now1 == now2
  {
    var d1, d2 := NatToDecimal(now1), NatToDecimal(now2);
    var n1, n2 := ScratchName(id1, now1), ScratchName(id2, now2);
    assert n1[3..|n1| - 5] == id1 + "-" + d1;
    assert n2[3..|n2| - 5] == id2 + "-" + d2;
    assert '-' !in d1 by { assert forall i :: 0 <= i < |d1| ==> IsDigit(d1[i]); }
    assert '-' !in d2 by { assert forall i :: 0 <= i < |d2| ==> IsDigit(d2[i]); }
    SplitAtLastDash(id1, d1, id2, d2);
    NatToDecimalInjective(now1, now2);
  }

  /** In one directory, distinct names give distinct paths. */
  lemma JoinPathInjective(dir: string, name1: string, name2: string)
    requires JoinPath(dir, name1) == JoinPath(dir, name2)
    ensures name1 == name2
  {
    var p1, p2 := JoinPath(dir, name1), JoinPath(dir, name2);
    var k := |p1| - |name1|;
    assert name1 == p1[k..];
    assert name2 == p2[k..];
  }

  /** Requests that differ in id or in clock reading never share a scratch path. */
  lemma ScratchPathsDistinct(dir: string, id1: string, now1: nat, id2: string, now2: nat)
    requires id1 != id2 || now1 != now2
    ensures JoinPath(dir, ScratchName(id1, now1)) != JoinPath(dir, ScratchName(id2, now2))
  {
    if JoinPath(dir, ScratchName(id1, now1)) == JoinPath(dir, ScratchName(id2, now2)) {
      JoinPathInjective(dir, ScratchName(id1, now1), ScratchName(id2, now2));
      ScratchNameInjective(id1, now1, id2, now2);
    }
  }
}

=== FILE: transcript_shaping.dfy ===
/** The reshaping of the transcription provider's answer into the route's success
    body: `{ text: tr.text || "", segments }`. */
module TranscriptShaping {
  import opened Wrappers
  import opened JsValues

  /** `{ start: s.start, end: s.end, text: s.text }` for a segment whose properties
      can be read; every other field of the provider's segment is dropped. */
  function Projection(s: Value): (r: Value)
    ensures r.Obj? && r.fields.Keys == {"start", "end", "text"}
    ensures forall k :: k in r.fields ==> r.fields[k] == Field(s, k)
  {
    Obj(map["start" := Field(s, "start"), "end" := Field(s, "end"), "text" := Field(s, "text")])
  }

  /** The arrow `s => ({ start: s.start, end: s.end, text: s.text })`, reading the
      three properties left to right; the first read of a nullish `s` throws. */
  function ShapeSegment(s: Value): (r: Result<Value, Thrown>)
    ensures r.Ok? <==> !Nullish(s)
    ensures r.Ok? ==> r.value == Projection(s)
    ensures r.Err? ==> r.error == ReadError(s, "start")
  {
    match GetProp(s, "start")
    case Err(e) => Err(e)
    case Ok(start) =>
      match GetProp(s, "end")
      case Err(e) => Err(e)
      case Ok(end) =>
        match GetProp(s, "text")
        case Err(e) => Err(e)
        case Ok(text) => Ok(Obj(map["start" := start, "end" := end, "text" := text]))
  }

  /** The index of the first nullish item, or `|items|` when there is none. */
  function FirstNullish(items: seq<Value>): (k: nat)
    ensures k <= |items|
    ensures forall j :: 0 <= j < k ==> !Nullish(items[j])
    ensures k < |items| ==> Nullish(items[k])
  {
    if items == [] || Nullish(items[0]) then 0 else 1 + FirstNullish(items[1..])
  }

  /** `items.map(...)`: one projected segment per item, in the same order, unless an
      item is nullish, in which case the first such item's `TypeError` escapes. */
  function ShapeItems(items: seq<Value>): (r: Result<seq<Value>, Thrown>)
    ensures r.Ok? <==> FirstNullish(items) == |items|
    ensures r.Ok? ==> |r.value| == |items|
    ensures r.Ok? ==> forall i :: 0 <= i < |items| ==> r.value[i] == Projection(items[i])
    ensures r.Err? ==> FirstNullish(items) < |items| && r.error == ReadError(items[FirstNullish(items)], "start")
  {
    if items == [] then Ok([])
    else
      match ShapeSegment(items[0])
      case Err(e) => Err(e)
      case Ok(head) =>
        match ShapeItems(items[1..])
        case Err(e) => Err(e)
        case Ok(tail) => Ok([head] + tail)
  }

  /** `Array.isArray(tr.segments) ? tr.segments.map(...) : []`. */
  function ShapeSegments(tr: Value): (r: Result<seq<Value>, Thrown>)
    ensures Nullish(tr) ==> r == Err(ReadError(tr, "segments"))
    ensures !Nullish(tr) && !Field(tr, "segments").Arr? ==> r == Ok([])
    ensures !Nullish(tr) && Field(tr, "segments").Arr? ==> r == ShapeItems(Field(tr, "segments").items)
  {
    match GetProp(tr, "segments")
    case Err(e) => Err(e)
    case Ok(segs) => if segs.Arr? then ShapeItems(segs.items) else Ok([])
  }

  /** The body of the 200 response: `text` is the provider's text when truthy and
      `""` otherwise; `segments` is the shaped list. */
  function SuccessBody(tr: Value): (r: Result<Value, Thrown>)
    ensures r.Ok? <==> ShapeSegments(tr).Ok?
    ensures r.Err? ==> r.error == ShapeSegments(tr).error
    ensures r.Ok? ==> r.value.Obj? && r.value.fields.Keys == {"text", "segments"}
    ensures r.Ok? ==> r.value.fields["segments"] == Arr(ShapeSegments(tr).value)
    ensures r.Ok? ==>
      r.value.fields["text"] == (if Truthy(Field(tr, "text")) then Field(tr, "text") else Str(""))
  {
    match ShapeSegments(tr)
    case Err(e) => Err(e)
    case Ok(segments) =>
      match GetProp(tr, "text")
      case Err(e) => Err(e)
      case Ok(text) =>
        Ok(Obj(map["text" := if Truthy(text) then text else Str(""), "segments" := Arr(segments)]))
  }

  /** Projecting a projected segment changes nothing. */
  lemma ProjectionIdempotent(s: Value)
    ensures Projection(Projection(s)) == Projection(s)
  {
  }

  /** Shaping is idempotent: the shaped segments, shaped again, come back unchanged. */
  lemma {:induction false} ShapeItemsIdempotent(items: seq<Value>)
    requires ShapeItems(items).Ok?
    ensures ShapeItems(ShapeItems(items).value) == ShapeItems(items)
  {
    var out := ShapeItems(items).value;
    var again := ShapeItems(out);
    assert forall i :: 0 <= i < |out| ==> !Nullish(out[i]);
    assert again.Ok? && |again.value| == |out|;
    forall i | 0 <= i < |out| ensures again.value[i] == out[i] {
      ProjectionIdempotent(items[i]);
    }
    assert again.value == out;
  }
}

=== FILE: video_id.dfy ===
/** The `videoId` check of api/whisper.js: the query value must be present and
    its string form must match `^[A-Za-z0-9_-]{6,}$`. */
module VideoIds {
  import opened Wrappers
  import opened JsValues

  /** The characters of the class `[A-Za-z0-9_-]`. */
  predicate IsIdChar(c: char) {
    ('A' <= c <= 'Z') || ('a' <= c <= 'z') || ('0' <= c <= '9') || c == '_' || c == '-'
  }

  /** The language of `^[A-Za-z0-9_-]{6,}$`, stated directly. */
  predicate IsVideoId(s: string) {
    |s| >= MinLength && forall i :: 0 <= i < |s| ==> IsIdChar(s[i])
  }

  const MinLength: nat := 6

  /** The pattern as a finite automaton: state `k` means `k` id characters seen so
      far (capped at `MinLength`), `None` is the dead state. */
  function Step(k: nat, c: char): (next: Option<nat>) {
    if IsIdChar(c) then Some(if k < MinLength then k + 1 else MinLength) else None
  }

  function RunPattern(k: nat, s: string): (final: Option<nat>)
    decreases |s|
  {
    if s == [] then Some(k)
    else match Step(k, s[0])
      case None => None
      case Some(k') => RunPattern(k', s[1..])
  }

  /** `/^[A-Za-z0-9_-]{6,}$/.test(s)`: the automaton ends in the accepting state.
      Without the `m` flag `$` matches only at the very end of the input. */
  predicate PatternTest(s: string) {
    RunPattern(0, s) == Some(MinLength)
  }

  /** From state `k <= MinLength` the automaton survives exactly the strings of id
      characters, and then counts them up to the cap. */
  lemma {:induction false} RunCounts(k: nat, s: string)
    requires k <= MinLength
    ensures RunPattern(k, s) ==
      if forall i :: 0 <= i < |s| ==> IsIdChar(s[i])
      then Some(if k + |s| < MinLength then k + |s| else MinLength)
      else None
    decreases |s|
  {
    if s != [] {
      if IsIdChar(s[0]) {
        var k' := if k < MinLength then k + 1 else MinLength;
        RunCounts(k', s[1..]);
        if forall i :: 0 <= i < |s[1..]| ==> IsIdChar(s[1..][i]) {
          assert forall i :: 0 <= i < |s| ==> IsIdChar(s[i]) by {
            forall i | 0 <= i < |s| ensures IsIdChar(s[i]) {
              if i > 0 { assert s[i] == s[1..][i - 1]; }
            }
          }
        } else {
          var j :| 0 <= j < |s[1..]| && !IsIdChar(s[1..][j]);
          assert s[j + 1] == s[1..][j];
        }
      }
    }
  }

  /** The automaton accepts exactly the strings `IsVideoId` describes. */
  lemma PatternTestIsVideoId(s: string)
    ensures PatternTest(s) <==> IsVideoId(s)
  {
    RunCounts(0, s);
  }

  /** The three ways the check on `videoId` can end. */
  datatype IdCheck =
      /** the id passed; it is the string form of the parameter */
    | Accepted(id: string)
      /** the 400 branch */
    | Rejected
      /** `String(videoId)` threw, which the catch block turns into a 500 */
    | Threw(err: Thrown)

  /** The handler's check on `req.query.videoId`: rejected when `req.query` is
      missing, the key is missing, the value is falsy, or its string form does not
      match the pattern; the conversion to a string may throw; otherwise the
      accepted id is that string form. */
  function ValidateVideoId(query: Option<map<string, QueryValue>>): (r: IdCheck)
    ensures r.Threw? <==>
      query.Some? && "videoId" in query.value && ThrowsOnConvert(query.value["videoId"])
    ensures r.Threw? ==> r.err == ConvertError
    ensures r.Accepted? <==>
      && query.Some? && "videoId" in query.value
      && QueryString(query.value["videoId"]).Ok?
      && IsVideoId(QueryString(query.value["videoId"]).value)
    ensures r.Accepted? ==> r.id == QueryString(query.value["videoId"]).value && IsVideoId(r.id)
  {
    var params := if query.Some? then query.value else map[];
    if "videoId" !in params then Rejected
    else
      var v := params["videoId"];
      if !QueryTruthy(v) then Rejected
      else
        match QueryString(v)
        case Err(e) => Threw(e)
        case Ok(s) =>
          PatternTestIsVideoId(s);
          if PatternTest(s) then Accepted(s) else Rejected
  }

  /** A plain string parameter is accepted iff it has six or more characters, all
      letters, digits, `_` or `-`, and is otherwise rejected. */
  lemma ValidateString(s: string)
    ensures ValidateVideoId(Some(map["videoId" := QStr(s)])) ==
      if |s| >= 6 && forall i :: 0 <= i < |s| ==> IsIdChar(s[i]) then Accepted(s) else Rejected
  {
  }

  /** The id of the well-formed scenario, `dQw4w9WgXcQ`, is accepted. */
  lemma WellFormedId()
    ensures ValidateVideoId(Some(map["videoId" := QStr("dQw4w9WgXcQ")])) == Accepted("dQw4w9WgXcQ")
  {
    var s := "dQw4w9WgXcQ";
    assert IsVideoId(s);
    ValidateString(s);
  }

  /** A repeated parameter (`?videoId=a&videoId=b`) is never accepted: its string
      form contains a comma, or its conversion throws. */
  lemma ValidateRejectsRepeated(items: seq<QueryValue>)
    requires |items| >= 2
    ensures !ValidateVideoId(Some(map["videoId" := QList(items)])).Accepted?
  {
    var r := QueryString(QList(items));
    if r.Ok? {
      ListStringHasComma(items);
      var k :| 0 <= k < |r.value| && r.value[k] == ',';
      assert !IsIdChar(r.value[k]);
    }
  }

  /** A one-item list (`?videoId[]=x`) is judged, and accepted, as its item. */
  lemma ValidateSingletonList(x: QueryValue)
    ensures ValidateVideoId(Some(map["videoId" := QList([x])])) ==
            ValidateVideoId(Some(map["videoId" := x]))
  {
    SingletonListString(x);
  }

  /** A bracketed-key object (`?videoId[a]=b`) is never accepted: it throws when it
      has an own `toString` key, and is rejected otherwise, since `[object Object]`
      contains a space. */
  lemma ValidateObject(fields: map<string, QueryValue>)
    ensures ValidateVideoId(Some(map["videoId" := QObject(fields)])) ==
      if "toString" in fields then Threw(ConvertError) else Rejected
  {
    if "toString" !in fields {
      assert !IsIdChar(QueryString(QObject(fields)).value[0]);
    }
  }
}

=== FILE: whisper_route.dfy ===
/** The `GET /` handler of api/whisper.js as a function from the request and the
    outcomes of its outside calls to the ordered list of effects it performs:
    validate, download, transcribe, reply 200, then a best-effort unlink; any
    throw after validation becomes a 500 reply with no unlink. */
module WhisperRoute {
  import opened Wrappers
  import opened JsValues
  import opened VideoIds
  import opened RequestHeaders
  import opened ScratchFiles
  import opened TranscriptShaping

  /** The options handed to the downloader. */
  datatype DownloadOptions = DownloadOptions(
    headers: map<string, string>,
    quality: string,
    filter: string,
    highWaterMark: nat,
    dlChunkSize: nat)

  /** The parameters of the transcription request (the file is passed separately). */
  datatype TranscriptionParams = TranscriptionParams(model: string, responseFormat: string, temperature: int)

  const HighWaterMark: nat := 33554432  // 1 << 25 bytes
  const WhisperParams := TranscriptionParams("whisper-1", "verbose_json", 0)

  /** `{ requestOptions: reqOpts(), quality: "highestaudio", filter: "audioonly", ... }`:
      the `reqOpts()` headers, the best audio-only format, a 32 MiB buffer and
      unchunked download. */
  function YtdlOptions(cfg: Config): (opts: DownloadOptions)
    ensures opts.headers == ReqOpts(cfg)
    ensures opts.quality == "highestaudio" && opts.filter == "audioonly"
    ensures opts.highWaterMark == 32 * 1024 * 1024 && opts.dlChunkSize == 0
  {
    DownloadOptions(ReqOpts(cfg), "highestaudio", "audioonly", HighWaterMark, 0)
  }

  datatype Response = Response(status: nat, body: Value)

  /** An outbound call the handler makes before it replies. */
  datatype Call =
    | Download(url: string, dest: string, options: DownloadOptions)
    | Transcribe(file: string, params: TranscriptionParams)

  /** How the download-and-write promise settles: resolved on `finish`, or rejected
      by a stream or file error (`created` tells whether the write stream's open succeeded,
      so that the file exists on disk). */
  datatype DownloadOutcome = Finished | StreamFailed(err: Thrown, created: bool)

  /** How the transcription call settles: the provider's parsed response, or a throw. */
  datatype TranscribeOutcome = Transcribed(tr: Value) | TranscribeFailed(err: Thrown)

  /** What the unlink does; its callback ignores errors and any synchronous throw is caught. */
  datatype UnlinkOutcome = Removed | NotRemoved

  /** Everything the handler reads besides the request: the temp directory, the clock
      and the outcomes of the calls it makes. */
  datatype World = World(
    tmpdir: string,
    now: nat,
    download: DownloadOutcome,
    transcription: TranscribeOutcome,
    unlink: UnlinkOutcome)

  /** One handled request, in the order things happen: the outbound calls, the one
      reply, then the path the handler tries to unlink (if any), and the scratch
      file left on disk afterwards (if any). */
  datatype Run = Run(calls: seq<Call>, reply: Response, unlink: Option<string>, leftover: Option<string>)

  const InvalidIdResponse := Response(400, Obj(map["error" := Str("Invalid videoId")]))

  /** The catch block's reply: status 500, a fixed `error` and, as `detail`, the
      thrown value's message when it is a non-empty string and its string form
      otherwise. */
  function FailureResponse(err: Thrown): (resp: Response)
    ensures resp.status == 500 && resp.body.Obj?
    ensures resp.body.fields.Keys == {"error", "detail"}
    ensures resp.body.fields["error"] == Str("Whisper failed")
    ensures HasTruthyMessage(err) ==> resp.body.fields["detail"] == Str(err.message.value)
    ensures !HasTruthyMessage(err) ==> resp.body.fields["detail"] == Str(Shown(err))
  {
    Response(500, Obj(map["error" := Str("Whisper failed"), "detail" := Str(ErrorDetail(err))]))
  }

  /** The scratch path of a request: the scratch name of the id and the clock reading,
      inside the temp directory. */
  function ScratchPath(w: World, id: string): (path: string)
    ensures |path| >= |w.tmpdir| + |ScratchName(id, w.now)|
    ensures path[|path| - |ScratchName(id, w.now)|..] == ScratchName(id, w.now)
    ensures path[..|w.tmpdir|] == w.tmpdir
  {
    JoinPath(w.tmpdir, ScratchName(id, w.now))
  }

  /** In a non-empty temp directory the scratch file sits directly inside it: the
      directory, one `/` unless the directory already ends with one, then the name. */
  lemma ScratchPathInsideTmpdir(w: World, id: string)
    requires w.tmpdir != []
    ensures var path, name := ScratchPath(w, id), ScratchName(id, w.now);
      && path[..|w.tmpdir|] == w.tmpdir
      && path[|path| - |name| - 1] == '/'
      && path[|path| - |name|..] == name
      && |path| == |w.tmpdir| + |name| + (if w.tmpdir[|w.tmpdir| - 1] == '/' then 0 else 1)
  {
  }

  /** Neither a download nor a transcription request. */
  predicate NoOutboundCalls(run: Run) {
    run.calls == []
  }

  /** The handler after the id passed: one download of the audio to the scratch
      path, then, only if it finished, one transcription of that file; the reply is
      200 only when the answer could be shaped, and only then is the file unlinked. */
  function Proceed(cfg: Config, id: string, w: World): (run: Run)
    ensures var tmp := ScratchPath(w, id);
      && |run.calls| == (if w.download.Finished? then 2 else 1)
      && run.calls[0] == Download(WatchUrl(id), tmp, YtdlOptions(cfg))
      && (w.download.Finished? ==> run.calls[1] == Transcribe(tmp, WhisperParams))
    ensures run.reply.status in {200, 500}
    ensures run.leftover.Some? ==> run.leftover == Some(ScratchPath(w, id))
    ensures run.reply.status == 500 ==>
      && run.unlink.None?
      && run.leftover.Some? == (w.download.Finished? || w.download.created)
    ensures run.reply.status == 200 ==>
      var tmp := ScratchPath(w, id);
      && w.download.Finished? && w.transcription.Transcribed?
      && SuccessBody(w.transcription.tr).Ok?
      && run.reply == Response(200, SuccessBody(w.transcription.tr).value)
      && run.unlink == Some(tmp)
      && (run.leftover.None? <==> w.unlink.Removed?)
  {
    var tmp := ScratchPath(w, id);
    var fetch := Download(WatchUrl(id), tmp, YtdlOptions(cfg));
    match w.download
    case StreamFailed(err, created) =>
      Run([fetch], FailureResponse(err), None, if created then Some(tmp) else None)
    case Finished =>
      var calls := [fetch, Transcribe(tmp, WhisperParams)];
      match w.transcription
      case TranscribeFailed(err) => Run(calls, FailureResponse(err), None, Some(tmp))
      case Transcribed(tr) =>
        match SuccessBody(tr)
        case Err(err) => Run(calls, FailureResponse(err), None, Some(tmp))
        case Ok(body) =>
          Run(calls, Response(200, body), Some(tmp), if w.unlink.Removed? then None else Some(tmp))
  }

  /** The handler; `cfg` is the sanitised configuration computed at module load
      (`LoadConfig` of the environment). A rejected id gets the 400 reply and a
      throwing conversion the 500 reply, both before any outbound call. */
  function Handle(cfg: Config, query: Option<map<string, QueryValue>>, w: World): (run: Run)
    ensures run.reply.status in {200, 400, 500}
    ensures run.reply.status == 400 <==> ValidateVideoId(query).Rejected?
    ensures ValidateVideoId(query).Rejected? ==> run == Run([], InvalidIdResponse, None, None)
    ensures ValidateVideoId(query).Threw? ==> run == Run([], FailureResponse(ConvertError), None, None)
    ensures NoOutboundCalls(run) <==> !ValidateVideoId(query).Accepted?
    ensures ValidateVideoId(query).Accepted? ==> run == Proceed(cfg, ValidateVideoId(query).id, w)
  {
    match ValidateVideoId(query)
    case Rejected => Run([], InvalidIdResponse, None, None)
    case Threw(err) => Run([], FailureResponse(err), None, None)
    case Accepted(id) => Proceed(cfg, id, w)
  }

  /** The reply is 200 exactly when the id is valid, the download finished, the
      provider answered and its segments could be shaped; the body is then the
      shaped answer. */
  lemma SuccessIff(cfg: Config, query: Option<map<string, QueryValue>>, w: World)
    ensures Handle(cfg, query, w).reply.status == 200 <==>
        && ValidateVideoId(query).Accepted?
        && w.download.Finished?
        && w.transcription.Transcribed?
        && SuccessBody(w.transcription.tr).Ok?
  {
  }

  /** A failed download replies 500 with the error's detail and never reaches the
      transcription provider. */
  lemma DownloadFailureReply(cfg: Config, query: Option<map<string, QueryValue>>, w: World)
    requires ValidateVideoId(query).Accepted? && w.download.StreamFailed?
    ensures var run := Handle(cfg, query, w);
      && run.reply == FailureResponse(w.download.err)
      && forall i :: 0 <= i < |run.calls| ==> !run.calls[i].Transcribe?
  {
    var run := Proceed(cfg, ValidateVideoId(query).id, w);
    assert |run.calls| == 1 && run.calls[0].Download?;
  }

  /** A failed transcription, or a provider answer whose segments cannot be read,
      replies 500 with that error's detail and leaves the scratch file on disk. */
  lemma TranscriptionFailureReply(cfg: Config, query: Option<map<string, QueryValue>>, w: World)
    requires ValidateVideoId(query).Accepted? && w.download.Finished?
    requires w.transcription.TranscribeFailed? || SuccessBody(w.transcription.tr).Err?
    ensures var run := Handle(cfg, query, w);
      var err := if w.transcription.TranscribeFailed? then w.transcription.err
                 else SuccessBody(w.transcription.tr).error;
      && run.reply == FailureResponse(err)
      && run.leftover == Some(ScratchPath(w, ValidateVideoId(query).id))
  {
  }

  /** The unlink comes after the reply and its outcome changes neither the reply nor
      any call. */
  lemma UnlinkCannotChangeReply(cfg: Config, query: Option<map<string, QueryValue>>, w: World, u: UnlinkOutcome)
    ensures Handle(cfg, query, w).reply == Handle(cfg, query, w.(unlink := u)).reply
    ensures Handle(cfg, query, w).calls == Handle(cfg, query, w.(unlink := u)).calls
  {
    if ValidateVideoId(query).Accepted? {
      ProceedIgnoresUnlink(cfg, ValidateVideoId(query).id, w, u);
    }
  }

  /** After the id passed, the unlink's outcome changes neither the reply nor the calls. */
  lemma ProceedIgnoresUnlink(cfg: Config, id: string, w: World, u: UnlinkOutcome)
    ensures Proceed(cfg, id, w).reply == Proceed(cfg, id, w.(unlink := u)).reply
    ensures Proceed(cfg, id, w).calls == Proceed(cfg, id, w.(unlink := u)).calls
  {
    var w' := w.(unlink := u);
    assert ScratchPath(w, id) == ScratchPath(w', id);
    if w.download.Finished? && w.transcription.Transcribed? && SuccessBody(w.transcription.tr).Ok? {
      assert Proceed(cfg, id, w).reply == Response(200, SuccessBody(w.transcription.tr).value);
    }
  }

  /** Two valid requests handled in the same temp directory write to different
      scratch files unless they share both the id and the clock reading. */
  lemma DistinctScratchFiles(
    cfg: Config, q1: Option<map<string, QueryValue>>, w1: World,
    q2: Option<map<string, QueryValue>>, w2: World)
    requires ValidateVideoId(q1).Accepted? && ValidateVideoId(q2).Accepted?
    requires w1.tmpdir == w2.tmpdir
    requires ValidateVideoId(q1).id != ValidateVideoId(q2).id || w1.now != w2.now
    ensures Handle(cfg, q1, w1).calls[0].dest != Handle(cfg, q2, w2).calls[0].dest
  {
    ScratchPathsDistinct(w1.tmpdir, ValidateVideoId(q1).id, w1.now, ValidateVideoId(q2).id, w2.now);
  }

  /** The download of a valid request carries the configuration's headers; with the
      clean values `LoadConfig` produces, none of them can break a header line. */
  lemma DownloadHeadersClean(cfg: Config, query: Option<map<string, QueryValue>>, w: World)
    requires ValidateVideoId(query).Accepted?
    requires IsCleanHeaderValue(cfg.userAgent) && IsCleanHeaderValue(cfg.cookie)
    ensures var run := Handle(cfg, query, w);
      && run.calls[0].Download?
      && run.calls[0].url == WatchUrl(ValidateVideoId(query).id)
      && run.calls[0].options == YtdlOptions(cfg)
      && forall k :: k in run.calls[0].options.headers ==> IsCleanHeaderValue(run.calls[0].options.headers[k])
  {
    ReqOptsClean(cfg);
  }

  /** The provider answer with a `null` segment cannot be shaped. */
  lemma NullSegmentAnswer(tr: Value)
    requires tr == Obj(map["text" := Str("hi"), "segments" := Arr([Null])])
    ensures SuccessBody(tr) == Err(ReadError(Null, "start"))
  {
    assert Field(tr, "segments") == Arr([Null]);
    assert ShapeItems([Null]) == Err(ReadError(Null, "start"));
  }

  /** A provider segment list containing `null` reaches the catch block with V8's
      `TypeError` message as detail. */
  lemma NullSegmentFails(cfg: Config, query: Option<map<string, QueryValue>>, w: World)
    requires ValidateVideoId(query).Accepted? && w.download.Finished?
    requires w.transcription == Transcribed(Obj(map["text" := Str("hi"), "segments" := Arr([Null])]))
    ensures Handle(cfg, query, w).reply == FailureResponse(ReadError(Null, "start"))
    ensures ErrorDetail(ReadError(Null, "start")) == "Cannot read properties of null (reading 'start')"
  {
    NullSegmentAnswer(w.transcription.tr);
    TranscriptionFailureReply(cfg, query, w);
    NullReadDetail();
  }

  /** The one-segment answer of the well-formed scenario shapes to itself. */
  lemma OneSegmentAnswer(tr: Value, text: Value, seg: Value)
    requires text == Str("Never gonna give you up")
    requires seg == Obj(map["start" := Num(0.0), "end" := Num(2.3), "text" := text])
    requires tr == Obj(map["text" := text, "segments" := Arr([seg])])
    ensures SuccessBody(tr) == Ok(tr)
  {
    assert Projection(seg) == seg;
    var shaped := ShapeItems([seg]);
    assert shaped.Ok? && |shaped.value| == 1 && shaped.value[0] == Projection(seg);
    assert shaped.value == [seg];
    assert Field(tr, "segments") == Arr([seg]);
    assert Field(tr, "text") == text;
  }

  /** A well-formed request end to end: the provider's text and its one segment come
      back unchanged with status 200, and the scratch file is removed. */
  lemma WellFormedRequest(cfg: Config, w: World)
    requires w.download.Finished? && w.unlink.Removed?
    requires w.transcription == Transcribed(Obj(map[
      "text" := Str("Never gonna give you up"),
      "segments" := Arr([Obj(map["start" := Num(0.0), "end" := Num(2.3), "text" := Str("Never gonna give you up")])])]))
    ensures var run := Handle(cfg, Some(map["videoId" := QStr("dQw4w9WgXcQ")]), w);
      && run.reply == Response(200, w.transcription.tr)
      && run.leftover.None?
  {
    var text := Str("Never gonna give you up");
    var seg := Obj(map["start" := Num(0.0), "end" := Num(2.3), "text" := text]);
    OneSegmentAnswer(w.transcription.tr, text, seg);
    WellFormedId();
    SuccessIff(cfg, Some(map["videoId" := QStr("dQw4w9WgXcQ")]), w);
  }

  /** `?videoId[toString]=abcdefg` makes `String(videoId)` throw inside the `try`, so
      the reply is the 500 with V8's conversion message, not the 400. */
  lemma ToStringKeyFails(cfg: Config, w: World)
    ensures var run := Handle(cfg, Some(map["videoId" := QObject(map["toString" := QStr("abcdefg")])]), w);
      && run == Run([], FailureResponse(ConvertError), None, None)
      && run.reply.body.fields["detail"] == Str("Cannot convert object to primitive value")
  {
    ValidateObject(map["toString" := QStr("abcdefg")]);
  }

  /** A five-character id is refused with 400 before anything else happens. */
  lemma ShortIdRefused(cfg: Config, w: World)
    ensures Handle(cfg, Some(map["videoId" := QStr("abcde")]), w) == Run([], InvalidIdResponse, None, None)
  {
  }
}

=== FILE: wrappers.dfy ===
/** Failure-carrying datatypes shared by the whole model. */
module Wrappers {

  /** A value that may be absent: an unset environment variable, a missing query string. */
  datatype Option<+T> = None | Some(value: T)

  /** The outcome of a step that may throw: `Err` carries what was thrown. */
  datatype Result<+T, +E> = Ok(value: T) | Err(error: E)
}
